=== FILE: README.md ===
# PDF-to-speech converter, modelled in Dafny

This project models the decision logic of `TrainPractice-TTS.py`, a small
converter that reads a PDF, guesses whether its text is Russian or English,
cleans the text and hands it to a speech engine. The three libraries it
drives are treated as oracles: the PDF reader, the `langdetect` detector and
the `pyttsx3` speech engine. What remains is pure logic over strings, and the
model states it as pure functions over `seq<char>`:

- `Strings`: the Python `str` and `re` operations the converter uses.
  - `str.strip`, `str.isspace`, `str.split`, `str.join`, `str.replace`, `str.lower`, `str.isdigit` and substring `in`.
  - The run-collapsing substitutions `re.sub(r'\n+', '\n', …)` and `re.sub(r'\s+', ' ', …)`.
- `Cleaning`: `clean_text`.
- `Scenarios`: concrete inputs to `clean_text`.
- `Detection`: `detect_language`, with the detector passed in as a function that returns a code, or `None` when it raises.
- `Voices`: the voice catalog (`get_available_voices`) and the voice selector (`setup_voice_for_language`).
- `Conversion`: the page loop of `extract_text_from_pdf`, plus `text_to_audio` and `convert_pdf_to_audio`. A `World` record supplies everything the converter asks of the outside:
  - whether the input exists;
  - the pages' text, or a read failure;
  - the detector;
  - the engine's voice list;
  - whether directory creation succeeds;
  - whether synthesis succeeds.
- `Languages` and `Wrappers`: the language labels and `Option`.

The cleaner is modelled as written. Line 155 turns every whitespace run into a
single space, newlines included. So when line 158 splits the text into lines,
there is only ever one line. The length and digits-only filter therefore judges
the whole collapsed text, not individual lines:

- `Cleaning.CleanJudgesWholeText` states this exactly.
- `Scenarios.PageNumberLineSurvives` shows that a page number on a line of its own is kept.

Two other behaviours of the code are proved as they are:

- `detect_language` returns `'en'` for a blank sample, and `'en'` is never a catalog key.
- `os.makedirs(os.path.dirname(path))` raises for a bare file name, because its dirname is `''`. The default output name `<stem>_<language>.<format>` is such a bare name unless the stem, the format or a forced language contains a slash. In that usual case, leaving out the output path makes `text_to_audio` fail before any synthesis.

## Model

| member | source | states |
|---|---|---|
| Strings.Strip | TrainPractice-TTS.py:162 | the result neither starts nor ends with whitespace, is no longer than the input and holds only characters of it; it is empty exactly when the input is all whitespace; an already stripped string is returned unchanged |
| Strings.StripIsInfix | TrainPractice-TTS.py:162 | the stripped string is the infix of the input that follows the leading whitespace run, and everything after it is whitespace: only whitespace at the two ends is removed |
| Strings.SubRuns | TrainPractice-TTS.py:154-155 | collapsing the runs of a character class never lengthens the text and leaves it empty exactly when it was empty |
| Strings.SubRunsShape | TrainPractice-TTS.py:154-155 | after collapsing, every class character is the replacement, no two class characters are adjacent, the characters outside the class are those of the input in order, and every other character comes from the input |
| Strings.SubRunsAroundChar | TrainPractice-TTS.py:154-155 | a character outside the class stays where it is: collapsing text around it is collapsing the part before it, then the character, then collapsing the part after it afresh |
| Strings.SubRunsOfRun | TrainPractice-TTS.py:154-155 | a non-empty run made only of class characters becomes exactly one replacement character, or nothing when it continues a run already replaced |
| Strings.SubRunsIsolated | TrainPractice-TTS.py:155 | on a text where no two class characters are adjacent, collapsing only replaces each class character by the replacement, position for position |
| Strings.SubRunsIdempotent | TrainPractice-TTS.py:154-155 | collapsing runs a second time changes nothing |
| Strings.NewlinePassRedundant | TrainPractice-TTS.py:154-155 | collapsing newline runs first and then whitespace runs gives the same text as collapsing whitespace runs alone |
| Strings.Lower | TrainPractice-TTS.py:39-40 | lower-casing keeps the length, leaves no ASCII capital, maps each ASCII capital to its small letter and leaves every other character alone |
| Strings.ContainsIsInfix | TrainPractice-TTS.py:42-57 | `k in s` holds exactly when k occurs in s at some position |
| Strings.ContainsAnyCons | TrainPractice-TTS.py:42-57 | `any(k in s for k in ks)` is the first keyword's test or the test of the remaining keywords |
| Strings.SpaceFacts | TrainPractice-TTS.py:155-167 | the newline and the space are whitespace for `\s` and `str.strip`; the bullet, arrow and em dash are not; a digits-only string is never blank and is its own stripped form |
| Strings.Split | TrainPractice-TTS.py:158 | `split` on one character gives one more piece than there are separators, no piece contains the separator, and joining the pieces with it gives back the input |
| Strings.Join | TrainPractice-TTS.py:171 | every character of a join comes from the separator or from one of the parts |
| Strings.Replace | TrainPractice-TTS.py:176-184 | after replacing a character, every character of the result belongs to the replacement or is an input character other than the pattern; the pattern is gone unless the replacement contains it; an input without the pattern is returned unchanged |
| Strings.ReplaceAppend | TrainPractice-TTS.py:176-184 | replacing a character distributes over concatenation |
| Strings.DropRunShape | TrainPractice-TTS.py:162 | dropping leading whitespace removes exactly a prefix made only of whitespace |
| Cleaning.KeepLineNeedsNonDigit | TrainPractice-TTS.py:164-168 | a stripped line is kept exactly when it has at least three characters and at least one of them is not a digit |
| Cleaning.KeptLines | TrainPractice-TTS.py:158-169 | the surviving lines are at most as many as the lines; each survivor is stripped, at least three characters long and not all digits |
| Cleaning.KeptLinesSingle | TrainPractice-TTS.py:161-169 | one line survives, in its stripped form, exactly when that stripped form is at least three characters long and not all digits |
| Cleaning.KeptLinesAppend | TrainPractice-TTS.py:161-169 | the survivors of two lists of lines in sequence are the survivors of the first followed by those of the second, so every line is judged on its own and order is kept |
| Cleaning.Substitute | TrainPractice-TTS.py:173-184 | after the three replacements no bullet, arrow or em dash remains, and no newline is introduced |
| Cleaning.SubstituteIsPerCharacter | TrainPractice-TTS.py:173-184 | the chained replacements equal a per-character reading table: bullet becomes "маркер" for Russian and "bullet point" otherwise; arrow becomes "стрелка" or "arrow"; em dash becomes " - " in both cases; every other character stays |
| Cleaning.SpokenAllPlain | TrainPractice-TTS.py:173-184 | text without a bullet, an arrow or an em dash is read as itself |
| Cleaning.Collapse | TrainPractice-TTS.py:154-155 | the newline pass followed by the whitespace pass equals collapsing whitespace runs alone |
| Cleaning.JoinKeptLines | TrainPractice-TTS.py:157-171 | on text without a newline, splitting, filtering and joining gives the stripped text when it passes the filter and the empty string otherwise, so no newline appears |
| Cleaning.CollapsedIsOneLine | TrainPractice-TTS.py:154-158 | after the two collapsing passes no newline remains, so the split produces the collapsed text as its only line |
| Cleaning.OneLineFilter | TrainPractice-TTS.py:158-171 | splitting, filtering and joining a newline-free text gives its stripped form when that passes the filter, and the empty string otherwise |
| Cleaning.Clean | TrainPractice-TTS.py:149-186 | empty input gives the empty string; the output never contains a newline, a bullet, an arrow or an em dash |
| Cleaning.CleanJudgesWholeText | TrainPractice-TTS.py:153-186 | the cleaned text is the reading of the whitespace-collapsed, stripped text when that whole text is at least three characters long and not all digits, and the empty string otherwise |
| Cleaning.BlankCleansToNothing | TrainPractice-TTS.py:150-171 | whitespace-only text cleans to the empty string |
| Scenarios.PageNumberLineSurvives | TrainPractice-TTS.py:155-169 | "Intro\n42" cleans to "Intro 42": the page-number line is not dropped |
| Scenarios.EmDashDoublesSpaces | TrainPractice-TTS.py:173-184 | "a — b" cleans to "a  -  b" in every language: the dash replacement doubles the spaces around it |
| Detection.Sample | TrainPractice-TTS.py:83 | the detector sample is at most 1000 characters |
| Detection.DetectLanguage | TrainPractice-TTS.py:80-106 | the label is always "en", "russian" or "english"; "en" exactly when the stripped sample is empty; "russian" exactly when the sample is non-empty and the detector returns "ru"; "english" exactly when the sample is non-empty and the detector returns any other code or raises |
| Detection.EmptySampleIsBlankPrefix | TrainPractice-TTS.py:83-86 | the sample is empty exactly when the first 1000 characters are all whitespace |
| Detection.DetectionIgnoresTail | TrainPractice-TTS.py:83-88 | two texts that agree on their first 1000 characters get the same label |
| Voices.FirstFiring | TrainPractice-TTS.py:42-65 | the index of the first rule that fires: no earlier rule fires, and the rule at the index does unless it is past the end |
| Voices.NameBeforeId | TrainPractice-TTS.py:39-65 | a name mentioning a Russian keyword puts the voice in the Russian bucket; a name mentioning any language keyword decides the bucket whatever the id is; a name mentioning none leaves the bucket to the id alone |
| Voices.ClassifyFollowsRules | TrainPractice-TTS.py:42-65 | a voice's bucket is the bucket of the first firing rule, tried in the order name-russian, name-english, id-russian, id-english, with "other" when none fires |
| Voices.Members | TrainPractice-TTS.py:31-65 | each entry of a bucket carries the id, the name and the position of a listed voice that classifies into that bucket, in increasing order of position |
| Voices.MembersComplete | TrainPractice-TTS.py:31-65 | a listed voice's entry is in a bucket exactly when the voice classifies into it |
| Voices.BucketInhabited | TrainPractice-TTS.py:31-65 | a bucket has an entry exactly when some listed voice classifies into it |
| Voices.BucketSizes | TrainPractice-TTS.py:31-65 | the three bucket sizes add up to the number of listed voices |
| Voices.MembersExtend | TrainPractice-TTS.py:42-65 | listing one more voice appends its entry to its own bucket and leaves the other buckets as they were |
| Voices.DescribesStep | TrainPractice-TTS.py:42-65 | appending the next voice's entry to its bucket, created if missing, turns the catalog of a prefix of the list into the catalog of the next prefix |
| Voices.BuildCatalog | TrainPractice-TTS.py:26-78 | when the list can be read, the catalog has only the three keys, no empty bucket, and each bucket equals the reference bucket contents; when the voice query raises, the catalog is the single Default entry under "english" |
| Voices.SelectVoice | TrainPractice-TTS.py:108-126 | the selector reports success exactly when the language's bucket exists and is non-empty, and then picks its first entry; otherwise it picks the engine's first voice when the engine lists any, and leaves the voice unchanged when it lists none |
| Voices.SelectMatchesWhenBucketInhabited | TrainPractice-TTS.py:111 | on a catalog built from a voice list, a bucket's label selects a catalog voice exactly when some listed voice classifies into that bucket |
| Voices.SelectPicksFirstDiscovered | TrainPractice-TTS.py:111-113 | on a catalog built from a voice list, the selected voice is the earliest listed voice of that bucket |
| Voices.ShortLabelNeverMatches | TrainPractice-TTS.py:108-123 | the label "en" returned for a blank sample never selects a catalog voice, whether the catalog was built or is the default |
| Conversion.PagesText | TrainPractice-TTS.py:137-140 | the document text is empty exactly when there are no pages, and pages holding only whitespace give whitespace-only text |
| Conversion.PagesTextIsJoin | TrainPractice-TTS.py:137-143 | the document text is the pages joined by blank lines, with one more blank line at the end |
| Conversion.DirnameEmptyWithoutSlash | TrainPractice-TTS.py:199 | POSIX `os.path.dirname` (everything before the last slash, trailing slashes removed unless only slashes remain) is non-empty exactly when the path contains a slash, which is what `HasDirectory` tests |
| Conversion.TextToAudio | TrainPractice-TTS.py:188-213 | speech is started exactly when the text is not whitespace-only, the output path has a directory part, and creating that directory succeeds; it starts on the given text and path with the voice the selector picks; the result is true exactly when speech started and synthesis succeeded |
| Conversion.DefaultOutputPath | TrainPractice-TTS.py:243-245 | the default name is the stem, an underscore, the language, a dot and the format; it has a directory part only when one of those three has a slash |
| Conversion.Convert | TrainPractice-TTS.py:215-263 | a missing input file, a PDF that cannot be read, or one with no pages gives failure with nothing started, and otherwise a language and an output path are always chosen; a non-empty forced language replaces detection, and without one the label is "en" exactly when the detector sample is empty and "russian" exactly when the detector answers "ru" on it, and "english" exactly when the sample is non-empty and the detector answers anything else or raises; a given output path is used as is, and the `<stem>_<language>.<format>` name only when none is given; with cleaning off the document text itself is spoken, and speech starts exactly when it is not blank, the path has a directory part and creating it succeeds; speech uses the selector's voice for the chosen language; the result is true exactly when speech started and synthesis succeeded |
| Conversion.ConvertSpeaksCleanedText | TrainPractice-TTS.py:247-254 | with cleaning on, whatever is spoken is the document text with whitespace collapsed and stripped, read out by the symbol table for the chosen language, and that text passed the length and digits filter |
| Conversion.ConvertSpeaksWhenLineKept | TrainPractice-TTS.py:247-254 | with cleaning on, speech starts exactly when the whitespace-collapsed, stripped document text is at least three characters long and not all digits, the output path has a directory part and creating it succeeds |
| Conversion.BlankOpeningNeverUsesCatalogVoice | TrainPractice-TTS.py:233-254 | without a forced language, a document whose first 1000 characters are whitespace is labelled "en", and any speech started uses the engine's fallback voice, never a catalog voice |
| Conversion.DefaultOutputNeverSynthesizes | TrainPractice-TTS.py:242-254 | with no output path given, and no slash in the stem, the format or the forced language, the conversion never starts speech and returns false, because the default name has no directory part for line 199 to create |
| Conversion.BlankDocumentNeverSynthesizes | TrainPractice-TTS.py:191-193 | a document whose pages hold only whitespace is never synthesized, cleaned or not |

## Left out

- Speech engine calls are not modelled: `pyttsx3.init`, `setup_basic_properties` (rate and volume), `save_to_file` and `runAndWait`. Synthesis is a boolean of the `World`. The voice selector's effect is the `VoiceChoice` it records.
- `setProperty('voice', …)` is modelled as never raising. Were it to raise at line 114 or 122, the engine would keep its previous voice while the model still records the catalog voice or the engine's first voice as the choice. The `False` returned on that path (lines 124-126) is ignored by `text_to_audio`, so only the recorded voice would differ.
- Exceptions raised while reading one voice's `id` or `name` are not modelled separately. Only a failure of the whole voice query is modelled: it yields the default catalog.
- PDF parsing is not modelled (`PdfReader`, `extract_text`). The pages are given as a list of strings, or as a read failure.
- `langdetect` is not modelled. Its statistical classifier, and the randomness that makes it nondeterministic, are an oracle: a function from the sample to a code, or `None` when it raises.
- File system effects are not modelled:
  - `os.path.exists` is a boolean of the `World`;
  - `os.makedirs` is a boolean of the `World`, except that the empty dirname is always a failure;
  - `os.path.getsize` at line 257 is assumed not to raise. If the output file were missing after a successful synthesis, it would raise out of `convert_pdf_to_audio`, which has no handler; the model returns the success flag instead. The megabyte figure it computes is floating point and only printed.
- `os.path.dirname` is modelled for POSIX paths only: a path has a directory part exactly when it contains '/'.
- `Path(pdf_path).stem` is taken as an input of the request rather than computed.
- All printing is left out, as are `main` and its hard-coded configuration.
- `Strings.Lower`: folds ASCII letters only. Python's `str.lower` also folds other letters, for example Cyrillic capitals in a voice name.
- `Strings.IsDigits`: accepts only ASCII digits. Python's `str.isdigit` also accepts other digit characters, such as superscripts.
- The program converts one PDF per call; there is no folder or batch conversion to model.
- A per-line filter that drops page-number lines is the apparent purpose of lines 157-169. It is not what the code does, because line 155 has already removed every newline. The model follows the code.

=== FILE: cleaning.dfy ===
/**
 * The text cleaner (`clean_text`): collapse whitespace, drop artefact lines,
 * join what is left and spell out the symbols a speech engine stumbles on.
 */
module Cleaning {
  import opened Strings
  import Languages

  /** The line filter: a line survives unless it is shorter than three characters or consists only of digits. */
  predicate KeepLine(line: string) {
    !(|line| < 3) && !IsDigits(line)
  }

  /** A line is kept exactly when it has at least three characters and one of them is not a digit. */
  lemma KeepLineNeedsNonDigit(line: string)
    ensures KeepLine(line) <==> |line| >= 3 && exists i :: 0 <= i < |line| && !('0' <= line[i] <= '9')
  {
  }

  /** Strip every line and keep, in order, the stripped lines the filter accepts. */
  function KeptLines(lines: seq<string>): (kept: seq<string>)
    ensures |kept| <= |lines|
    ensures forall k :: 0 <= k < |kept| ==> KeepLine(kept[k]) && Strip(kept[k]) == kept[k]
  {
    if lines == [] then []
    else
      var line := Strip(lines[0]);
      (if KeepLine(line) then [line] else []) + KeptLines(lines[1..])
  }

  /** A single line survives, stripped, exactly when its stripped form passes the filter. */
  lemma KeptLinesSingle(line: string)
    ensures KeptLines([line]) == if KeepLine(Strip(line)) then [Strip(line)] else []
  {
    assert [line][1..] == [];
  }

  /** The first line is judged on its own, ahead of the rest. */
  lemma KeptLinesCons(line: string, rest: seq<string>)
    ensures KeptLines([line] + rest) == KeptLines([line]) + KeptLines(rest)
  {
    var lines := [line] + rest;
    assert lines[0] == line && lines[1..] == rest;
    KeptLinesSingle(line);
  }

  /** Filtering acts line by line: the survivors of a concatenation are the survivors of each part, in order. */
  lemma {:induction false} KeptLinesAppend(a: seq<string>, b: seq<string>)
    ensures KeptLines(a + b) == KeptLines(a) + KeptLines(b)
  {
    if a == [] {
      assert a + b == b;
    } else {
      var line, tail := a[0], a[1..];
      ConsAppend(a, b);
      KeptLinesCons(line, tail + b);
      KeptLinesCons(line, tail);
      KeptLinesAppend(tail, b);
      AppendAssoc(KeptLines([line]), KeptLines(tail), KeptLines(b));
    }
  }

  /** The word a bullet is read as. */
  function BulletWord(language: string): string {
    if language == Languages.Russian then "маркер" else "bullet point"
  }

  /** The word an arrow is read as. */
  function ArrowWord(language: string): string {
    if language == Languages.Russian then "стрелка" else "arrow"
  }

  /** The three literal replacements, applied in this order. */
  function Substitute(s: string, language: string): (r: string)
    ensures '•' !in r && '→' !in r && '—' !in r
    ensures '\n' in r ==> '\n' in s
  {
    WordsArePlain(language);
    var bullets := Replace(s, '•', BulletWord(language));
    var arrows := Replace(bullets, '→', ArrowWord(language));
    Replace(arrows, '—', " - ")
  }

  /** No replacement text contains a newline or any of the three symbols. */
  lemma WordsArePlain(language: string)
    ensures forall c :: c in BulletWord(language) || c in ArrowWord(language) || c in " - " ==>
      c != '\n' && c != '•' && c != '→' && c != '—'
  {
  }

  /** Reference table: how one character is read out. */
  function Spoken(c: char, language: string): string {
    if c == '•' then BulletWord(language)
    else if c == '→' then ArrowWord(language)
    else if c == '—' then " - "
    else [c]
  }

  /** Reference reading of a whole string: each character by the table, concatenated. */
  function SpokenAll(s: string, language: string): string {
    if s == [] then [] else Spoken(s[0], language) + SpokenAll(s[1..], language)
  }

  /** A character other than whitespace is never read as blank. */
  lemma SpokenNotBlank(c: char, language: string)
    requires !IsSpace(c)
    ensures !AllSpace(Spoken(c, language))
  {
    if c == '—' {
      assert !IsSpace(Spoken(c, language)[1]);
    } else {
      assert !IsSpace(Spoken(c, language)[0]);
    }
  }

  /** A stripped line that passes the filter is never read as blank. */
  lemma KeptLineIsSpoken(line: string, language: string)
    requires KeepLine(line) && Strip(line) == line
    ensures !AllSpace(SpokenAll(line, language))
  {
    var head := Spoken(line[0], language);
    SpokenNotBlank(line[0], language);
    assert SpokenAll(line, language) == head + SpokenAll(line[1..], language);
    assert !AllSpace(head + SpokenAll(line[1..], language)) by {
      var i :| 0 <= i < |head| && !IsSpace(head[i]);
      assert (head + SpokenAll(line[1..], language))[i] == head[i];
    }
  }

  /** The reference reading distributes over concatenation. */
  lemma {:induction false} SpokenAllAppend(x: string, y: string, language: string)
    ensures SpokenAll(x + y, language) == SpokenAll(x, language) + SpokenAll(y, language)
  {
    if x == [] {
      assert x + y == y;
    } else {
      assert (x + y)[0] == x[0];
      assert (x + y)[1..] == x[1..] + y;
      SpokenAllAppend(x[1..], y, language);
    }
  }

  /** Text without any of the three symbols reads as itself. */
  lemma {:induction false} SpokenAllPlain(s: string, language: string)
    requires '•' !in s && '→' !in s && '—' !in s
    ensures SpokenAll(s, language) == s
  {
    if s != [] {
      var head, tail := s[0], s[1..];
      assert head in s && s == [head] + tail;
      assert '•' !in tail && '→' !in tail && '—' !in tail by {
        assert forall c :: c in tail ==> c in s;
      }
      SpokenAllPlain(tail, language);
      assert Spoken(head, language) == [head];
    }
  }

  /** Substitution distributes over concatenation. */
  lemma SubstituteAppend(x: string, y: string, language: string)
    ensures Substitute(x + y, language) == Substitute(x, language) + Substitute(y, language)
  {
    var b, a := BulletWord(language), ArrowWord(language);
    ReplaceAppend(x, y, '•', b);
    ReplaceAppend(Replace(x, '•', b), Replace(y, '•', b), '→', a);
    ReplaceAppend(Replace(Replace(x, '•', b), '→', a), Replace(Replace(y, '•', b), '→', a), '—', " - ");
  }

  /** A single character is read as the table says. */
  lemma SubstituteChar(c: char, language: string)
    ensures Substitute([c], language) == Spoken(c, language)
  {
    var b, a := BulletWord(language), ArrowWord(language);
    WordsArePlain(language);
    ReplaceSingle(c, '•', b);
    var r1 := if c == '•' then b else [c];
    if c == '•' {
      assert Replace(Replace(b, '→', a), '—', " - ") == b;
    } else {
      ReplaceSingle(c, '→', a);
      var r2 := if c == '→' then a else [c];
      if c == '→' {
        assert Replace(a, '—', " - ") == a;
      } else {
        ReplaceSingle(c, '—', " - ");
      }
    }
  }

  /**
   * The chained replacements act character by character: no replacement text
   * contains a symbol a later replacement looks for.
   */
  lemma {:induction false} SubstituteIsPerCharacter(s: string, language: string)
    ensures Substitute(s, language) == SpokenAll(s, language)
  {
    if s != [] {
      assert s == [s[0]] + s[1..];
      SubstituteAppend([s[0]], s[1..], language);
      SubstituteChar(s[0], language);
      SubstituteIsPerCharacter(s[1..], language);
    }
  }

  /** Lines 154-155: runs of newlines become one newline, then runs of any whitespace become one space. */
  function Collapse(text: string): (r: string)
    ensures r == SubRuns(text, Whitespace, ' ')
  {
    NewlinePassRedundant(text);
    SubRuns(SubRuns(text, Newlines, '\n'), Whitespace, ' ')
  }

  /** The collapsed text holds no newline, so the split produces it as the only line. */
  lemma {:induction false} CollapsedIsOneLine(text: string)
    ensures '\n' !in Collapse(text)
    ensures Split(Collapse(text), '\n') == [Collapse(text)]
  {
    var c := Collapse(text);
    SubRunsShape(SubRuns(text, Newlines, '\n'), Whitespace, ' ', false);
    SpaceFacts(text);
    var lines := Split(c, '\n');
    assert |lines| == 1;
  }

  /** Splitting, filtering and joining a newline-free text keeps or drops it whole. */
  lemma OneLineFilter(line: string)
    requires '\n' !in line
    ensures Join(KeptLines(Split(line, '\n')), " ") == if KeepLine(Strip(line)) then Strip(line) else []
  {
    var lines := Split(line, '\n');
    assert |lines| == 1 && lines == [line];
    assert KeptLines([line]) == (if KeepLine(Strip(line)) then [Strip(line)] else []) + KeptLines([]);
  }

  /** Lines 157-171: split into lines, strip and filter them, join the survivors with single spaces. */
  function JoinKeptLines(collapsed: string): (joined: string)
    ensures '\n' !in collapsed ==> joined == if KeepLine(Strip(collapsed)) then Strip(collapsed) else []
    ensures '\n' !in collapsed ==> '\n' !in joined
  {
    var joined := Join(KeptLines(Split(collapsed, '\n')), " ");
    assert '\n' !in collapsed ==> joined == if KeepLine(Strip(collapsed)) then Strip(collapsed) else [] by {
      if '\n' !in collapsed {
        OneLineFilter(collapsed);
      }
    }
    joined
  }

  /** `clean_text(text, language)`. */
  function Clean(text: string, language: string): (r: string)
    ensures text == [] ==> r == []
    ensures '\n' !in r
    ensures '•' !in r && '→' !in r && '—' !in r
  {
    if text == [] then []
    else
      CollapsedIsOneLine(text);
      var joined := JoinKeptLines(Collapse(text));
      Substitute(joined, language)
  }

  /**
   * The line filter only ever judges the whole text: the result is the
   * collapsed, stripped text with its symbols spelled out, or nothing at all
   * when that text is shorter than three characters or all digits.
   */
  lemma CleanJudgesWholeText(text: string, language: string)
    ensures var line := Strip(SubRuns(text, Whitespace, ' '));
      Clean(text, language) == if KeepLine(line) then SpokenAll(line, language) else []
  {
    NewlinePassRedundant(text);
    CollapsedIsOneLine(text);
    OneLineFilter(Collapse(text));
    assert JoinKeptLines(Collapse(text)) == Join(KeptLines(Split(Collapse(text), '\n')), " ");
    var line := Strip(SubRuns(text, Whitespace, ' '));
    SubstituteIsPerCharacter(line, language);
    if text == [] {
      assert Strip([]) == [];
    }
  }

  /** Text made only of whitespace cleans to nothing. */
  lemma BlankCleansToNothing(text: string, language: string)
    requires AllSpace(text)
    ensures Clean(text, language) == []
  {
    var collapsed := SubRuns(text, Whitespace, ' ');
    SubRunsShape(text, Whitespace, ' ', false);
    assert AllSpace(collapsed) by {
      forall i | 0 <= i < |collapsed| ensures IsSpace(collapsed[i]) {
        assert collapsed[i] in collapsed;
      }
    }
    CleanJudgesWholeText(text, language);
  }
}

=== FILE: conversion.dfy ===
/**
 * The conversion orchestrator: `extract_text_from_pdf`, `text_to_audio` and
 * `convert_pdf_to_audio`. Everything the converter asks of the file system,
 * the PDF reader, the detector and the speech engine is an input (a World).
 */
module Conversion {
  import opened Wrappers
  import opened Strings
  import Languages
  import Cleaning
  import Detection
  import Voices

  /** What the outside world answers during one conversion. */
  datatype World = World(
    inputExists: bool,                              // the PDF path exists
    pages: Option<seq<string>>,                     // text of each page; None when reading the PDF raised
    detect: string -> Option<string>,               // the language detector; None when it raised
    engineVoices: Option<seq<Voices.EngineVoice>>,  // the engine's voices when a voice is set up; None when the query raised
    makeDirsOk: bool,                               // creating a non-empty output directory succeeds
    synthesisOk: bool                               // saving the speech to the file returns normally
  )

  /** The document text: each page's text followed by a blank line. */
  function PagesText(pages: seq<string>): (text: string)
    ensures text == [] <==> pages == []
    ensures (forall k :: 0 <= k < |pages| ==> AllSpace(pages[k])) ==> AllSpace(text)
  {
    if pages == [] then []
    else
      var rest := PagesText(pages[1..]);
      assert (forall k :: 0 <= k < |pages| ==> AllSpace(pages[k])) ==> AllSpace(pages[0]) && AllSpace(rest) by {
        if forall k :: 0 <= k < |pages| ==> AllSpace(pages[k]) {
          assert forall k :: 0 <= k < |pages[1..]| ==> AllSpace(pages[1..][k]) by {
            forall k | 0 <= k < |pages[1..]| ensures AllSpace(pages[1..][k]) {
              assert pages[1..][k] == pages[k + 1];
            }
          }
        }
      }
      assert AllSpace("\n\n");
      pages[0] + "\n\n" + rest
  }

  /** The document text is the pages joined by blank lines, with one more blank line at the end. */
  lemma {:induction false} PagesTextIsJoin(pages: seq<string>)
    requires pages != []
    ensures PagesText(pages) == Join(pages, "\n\n") + "\n\n"
  {
    if |pages| > 1 {
      PagesTextIsJoin(pages[1..]);
    }
  }

  /** Whether `os.path.dirname(path)` is non-empty: the path contains a slash. */
  predicate HasDirectory(path: string) {
    '/' in path
  }

  /** Position just after the last slash of path, or 0 when there is none: `path.rfind('/') + 1`. */
  function SlashEnd(path: string): (i: nat)
    ensures i <= |path|
    ensures i == 0 <==> '/' !in path
    ensures i > 0 ==> path[i - 1] == '/'
    ensures forall k :: i <= k < |path| ==> path[k] != '/'
  {
    if path == [] then 0
    else if path[|path| - 1] == '/' then |path|
    else
      var i := SlashEnd(path[..|path| - 1]);
      assert '/' in path[..|path| - 1] ==> '/' in path;
      assert '/' in path ==> '/' in path[..|path| - 1] by {
        if '/' in path {
          var k :| 0 <= k < |path| && path[k] == '/';
          assert path[..|path| - 1][k] == '/';
        }
      }
      i
  }

  /** `s.rstrip('/')`. */
  function StripSlashes(s: string): (r: string)
    ensures |r| <= |s| && r == s[..|r|]
    ensures forall k :: |r| <= k < |s| ==> s[k] == '/'
    ensures r != [] ==> r[|r| - 1] != '/'
  {
    if s == [] || s[|s| - 1] != '/' then s
    else StripSlashes(s[..|s| - 1])
  }

  /** POSIX `os.path.dirname`: everything up to the last slash, without trailing slashes unless it is all slashes. */
  function Dirname(path: string): string {
    var head := path[..SlashEnd(path)];
    if head != [] && exists k :: 0 <= k < |head| && head[k] != '/' then StripSlashes(head) else head
  }

  /** The dirname is empty exactly when the path has no slash, which is when `os.makedirs` is handed `''`. */
  lemma DirnameEmptyWithoutSlash(path: string)
    ensures Dirname(path) != [] <==> HasDirectory(path)
  {
    var head := path[..SlashEnd(path)];
    if head != [] && exists k :: 0 <= k < |head| && head[k] != '/' {
      var k :| 0 <= k < |head| && head[k] != '/';
      var r := StripSlashes(head);
      assert k < |r|;
    }
  }

  /** What was handed to the speech engine. */
  datatype Audio = Audio(text: string, path: string, voice: Voices.VoiceChoice)

  /** The result of `text_to_audio` with the speech it started, if any. */
  datatype Speech = Speech(ok: bool, audio: Option<Audio>)

  /** `text_to_audio(text, output_path, language)`. */
  function TextToAudio(text: string, outputPath: string, language: string, cat: Voices.Catalog, world: World): (s: Speech)
    ensures s.audio.Some? <==> !AllSpace(text) && HasDirectory(outputPath) && world.makeDirsOk
    ensures s.ok <==> s.audio.Some? && world.synthesisOk
    ensures s.audio.Some? ==> s.audio.value.text == text && s.audio.value.path == outputPath
    ensures s.audio.Some? ==> s.audio.value.voice == Voices.SelectVoice(language, cat, world.engineVoices).choice
  {
    if Strip(text) == [] then Speech(false, None)
    // os.makedirs('') raises, so an output path without a directory fails here
    else if !HasDirectory(outputPath) || !world.makeDirsOk then Speech(false, None)
    else
      var selection := Voices.SelectVoice(language, cat, world.engineVoices);
      Speech(world.synthesisOk, Some(Audio(text, outputPath, selection.choice)))
  }

  /** Python truthiness of an optional string: present and non-empty. */
  predicate Given(s: Option<string>) {
    s.Some? && s.value != []
  }

  /** The output name used when none is given: `<stem>_<language>.<format>`. */
  function DefaultOutputPath(stem: string, language: string, format: string): (path: string)
    ensures |path| == |stem| + |language| + |format| + 2
    ensures path[..|stem|] == stem && path[|stem|] == '_' && path[|path| - |format|..] == format
    ensures path[|stem| + 1..|path| - |format| - 1] == language && path[|path| - |format| - 1] == '.'
    ensures HasDirectory(path) <==> HasDirectory(stem) || HasDirectory(language) || HasDirectory(format)
  {
    var path := stem + "_" + language + "." + format;
    assert path[|path| - |format|..] == format;
    assert forall c :: c in path <==> c in stem || c == '_' || c in language || c == '.' || c in format;
    path
  }

  /** A conversion request: the arguments of `convert_pdf_to_audio`, with the PDF path's stem already taken. */
  datatype Request = Request(
    stem: string,
    outputPath: Option<string>,
    format: string,
    clean: bool,
    forceLanguage: Option<string>
  )

  /** The outcome of a conversion: the returned flag and what the converter decided along the way. */
  datatype Outcome = Outcome(ok: bool, language: Option<string>, outputPath: Option<string>, audio: Option<Audio>)

  const Aborted: Outcome := Outcome(false, None, None, None)

  /** `convert_pdf_to_audio(...)` on a converter whose voice catalog is cat. */
  function Convert(req: Request, cat: Voices.Catalog, world: World): (c: Outcome)
    ensures !world.inputExists ==> c == Aborted
    ensures world.pages.None? || world.pages == Some([]) ==> c == Aborted
    ensures world.inputExists && world.pages.Some? && world.pages.value != [] ==> c.language.Some? && c.outputPath.Some?
    ensures c.ok <==> c.audio.Some? && world.synthesisOk
    ensures c.language.Some? && Given(req.forceLanguage) ==> c.language == req.forceLanguage
    ensures c.language.Some? && !Given(req.forceLanguage) ==>
      var sample := Detection.Sample(PagesText(world.pages.value));
      && (c.language == Some(Languages.ShortEnglish) <==> sample == [])
      && (c.language == Some(Languages.Russian) <==> sample != [] && world.detect(sample) == Some("ru"))
      && (c.language == Some(Languages.English) <==> sample != [] && world.detect(sample) != Some("ru"))
    ensures c.outputPath.Some? && Given(req.outputPath) ==> c.outputPath == req.outputPath
    ensures c.language.Some? && c.outputPath.Some? && !Given(req.outputPath) ==>
      c.outputPath == Some(DefaultOutputPath(req.stem, c.language.value, req.format))
    ensures c.outputPath.Some? && !req.clean ==>
      (c.audio.Some? <==> !AllSpace(PagesText(world.pages.value)) && HasDirectory(c.outputPath.value) && world.makeDirsOk)
    ensures c.audio.Some? && !req.clean ==> c.audio.value.text == PagesText(world.pages.value)
    ensures c.audio.Some? ==> !AllSpace(c.audio.value.text) && Some(c.audio.value.path) == c.outputPath
    ensures c.audio.Some? && c.language.Some? ==>
      c.audio.value.voice == Voices.SelectVoice(c.language.value, cat, world.engineVoices).choice
  {
    if !world.inputExists then Aborted
    else match world.pages
      case None => Aborted
      case Some(pages) =>
        var text := PagesText(pages);
        if text == [] then Aborted
        else
          var language := if Given(req.forceLanguage) then req.forceLanguage.value
                          else Detection.DetectLanguage(text, world.detect);
          var output := if Given(req.outputPath) then req.outputPath.value
                        else DefaultOutputPath(req.stem, language, req.format);
          var spoken := if req.clean then Cleaning.Clean(text, language) else text;
          var speech := TextToAudio(spoken, output, language, cat, world);
          Outcome(speech.ok, Some(language), Some(output), speech.audio)
  }

  /**
   * With cleaning on, the speech is the whitespace-collapsed, stripped document
   * text read out by the symbol table, and that text passed the line filter.
   */
  lemma ConvertSpeaksCleanedText(req: Request, cat: Voices.Catalog, world: World)
    requires req.clean
    ensures var c := Convert(req, cat, world);
      c.audio.Some? ==>
        && world.pages.Some?
        && var line := Strip(SubRuns(PagesText(world.pages.value), Whitespace, ' '));
        && Cleaning.KeepLine(line)
        && c.audio.value.text == Cleaning.SpokenAll(line, c.language.value)
  {
    var c := Convert(req, cat, world);
    if c.audio.None? {
      return;
    }
    var text := PagesText(world.pages.value);
    var language := c.language.value;
    Cleaning.CleanJudgesWholeText(text, language);
    assert c.audio.value.text == Cleaning.Clean(text, language);
    assert c.audio.value.text != [];
  }

  /**
   * Conversely, with cleaning on, speech starts exactly when the collapsed,
   * stripped document text passes the line filter, the output path has a
   * directory part and creating that directory succeeds.
   */
  lemma ConvertSpeaksWhenLineKept(req: Request, cat: Voices.Catalog, world: World)
    requires req.clean
    requires world.inputExists && world.pages.Some? && world.pages.value != []
    ensures var c := Convert(req, cat, world);
      var line := Strip(SubRuns(PagesText(world.pages.value), Whitespace, ' '));
      c.audio.Some? <==> Cleaning.KeepLine(line) && HasDirectory(c.outputPath.value) && world.makeDirsOk
  {
    var c := Convert(req, cat, world);
    var text := PagesText(world.pages.value);
    var language := c.language.value;
    var line := Strip(SubRuns(text, Whitespace, ' '));
    Cleaning.CleanJudgesWholeText(text, language);
    if Cleaning.KeepLine(line) {
      Cleaning.KeptLineIsSpoken(line, language);
    } else {
      assert AllSpace(Cleaning.Clean(text, language));
    }
  }

  /**
   * A document whose first thousand characters are blank is labelled "en"
   * unless a language is forced, and "en" never selects a catalog voice, so
   * speech (if any) uses the engine's fallback voice.
   */
  lemma BlankOpeningNeverUsesCatalogVoice(req: Request, listed: Option<seq<Voices.EngineVoice>>, cat: Voices.Catalog, world: World)
    requires listed.None? ==> cat == Voices.DefaultCatalog
    requires listed.Some? ==> Voices.Describes(cat, listed.value)
    requires !Given(req.forceLanguage)
    requires world.inputExists && world.pages.Some? && world.pages.value != []
    requires Detection.BlankOpening(PagesText(world.pages.value))
    ensures Convert(req, cat, world).language == Some(Languages.ShortEnglish)
    ensures Convert(req, cat, world).audio.Some? ==> !Convert(req, cat, world).audio.value.voice.CatalogVoice?
  {
    var text := PagesText(world.pages.value);
    Detection.EmptySampleIsBlankPrefix(text);
    Voices.ShortLabelNeverMatches(listed, cat, world.engineVoices);
  }

  /**
   * Without an output path the default name has no directory part, the
   * directory creation fails, and nothing is ever synthesized.
   */
  lemma DefaultOutputNeverSynthesizes(req: Request, cat: Voices.Catalog, world: World)
    requires !Given(req.outputPath)
    requires !HasDirectory(req.stem) && !HasDirectory(req.format)
    requires Given(req.forceLanguage) ==> !HasDirectory(req.forceLanguage.value)
    ensures !Convert(req, cat, world).ok && Convert(req, cat, world).audio.None?
  {
    if world.inputExists && world.pages.Some? && world.pages.value != [] {
      var text := PagesText(world.pages.value);
      var detected := Detection.DetectLanguage(text, world.detect);
      assert !HasDirectory(detected);
    }
  }

  /** A document whose pages hold only whitespace is never synthesized, cleaned or not. */
  lemma BlankDocumentNeverSynthesizes(req: Request, cat: Voices.Catalog, world: World)
    requires world.pages.Some?
    requires forall k :: 0 <= k < |world.pages.value| ==> AllSpace(world.pages.value[k])
    ensures !Convert(req, cat, world).ok && Convert(req, cat, world).audio.None?
  {
    if world.inputExists && world.pages.value != [] {
      var text := PagesText(world.pages.value);
      var language := if Given(req.forceLanguage) then req.forceLanguage.value else Detection.DetectLanguage(text, world.detect);
      Cleaning.BlankCleansToNothing(text, language);
    }
  }
}

=== FILE: detection.dfy ===
/**
 * The language classifier adapter (`detect_language`). The statistical
 * detector is an oracle: it returns a language code, or `None` when it raises.
 */
module Detection {
  import opened Wrappers
  import opened Strings
  import Languages

  /** Only this many leading characters are shown to the detector. */
  const SampleSize: nat := 1000

  /** `text[:1000].strip()`. */
  function Sample(text: string): (sample: string)
    ensures |sample| <= SampleSize
  {
    Strip(if |text| <= SampleSize then text else text[..SampleSize])
  }

  /** `detect_language(text)`, with the detector passed in. */
  function DetectLanguage(text: string, detect: string -> Option<string>): (language: string)
    ensures language in {Languages.ShortEnglish, Languages.Russian, Languages.English}
    ensures language == Languages.ShortEnglish <==> Sample(text) == []
    ensures language == Languages.Russian <==> Sample(text) != [] && detect(Sample(text)) == Some("ru")
    ensures language == Languages.English <==> Sample(text) != [] && detect(Sample(text)) != Some("ru")
  {
    var sample := Sample(text);
    if sample == [] then Languages.ShortEnglish
    else match detect(sample)
      case None => Languages.English
      case Some(code) =>
        if code == "ru" then Languages.Russian
        else if code in ["en", "en-us", "en-gb"] then Languages.English
        else Languages.English
  }

  /** The first thousand characters of text (all of it, when shorter) are whitespace. */
  predicate BlankOpening(text: string) {
    forall i :: 0 <= i < |text| && i < SampleSize ==> IsSpace(text[i])
  }

  /** The sample is empty exactly when the first thousand characters are all whitespace. */
  lemma EmptySampleIsBlankPrefix(text: string)
    ensures Sample(text) == [] <==> BlankOpening(text)
  {
    var prefix := if |text| <= SampleSize then text else text[..SampleSize];
    assert forall i :: 0 <= i < |prefix| ==> prefix[i] == text[i];
  }

  /** Only the first thousand characters matter. */
  lemma DetectionIgnoresTail(a: string, b: string, detect: string -> Option<string>)
    requires |a| >= SampleSize && |b| >= SampleSize && a[..SampleSize] == b[..SampleSize]
    ensures DetectLanguage(a, detect) == DetectLanguage(b, detect)
  {
    assert a[..SampleSize] == (if |a| <= SampleSize then a else a[..SampleSize]);
    assert b[..SampleSize] == (if |b| <= SampleSize then b else b[..SampleSize]);
  }
}

=== FILE: languages.dfy ===
/**
 * The language labels the converter passes around. They are plain strings in
 * the program: the detector produces three of them, a caller may force any
 * other, and the voice catalog uses them as keys.
 */
module Languages {

  const Russian: string := "russian"
  const English: string := "english"

  /** The label returned for an empty detection sample; it is not a catalog key. */
  const ShortEnglish: string := "en"

  /** The catalog bucket for voices that match no language rule. */
  const Other: string := "other"
}

=== FILE: scenarios.dfy ===
/**
 * Concrete inputs to the text cleaner that show what its line filter and its
 * dash replacement do to real text.
 */
module Scenarios {
  import opened Strings
  import opened Cleaning

  /**
   * A page number on a line of its own survives cleaning: newlines are gone
   * before the text is split, so the digits-only test sees the whole text.
   */
  lemma PageNumberLineSurvives(language: string)
    ensures Clean("Intro\n42", language) == "Intro 42"
  {
    CleanJudgesWholeText("Intro\n42", language);
    PageNumberLineCollapsed();
    PageNumberLineKept();
    PlainLineSpoken(language);
  }

  lemma PageNumberLineCollapsed()
    ensures SubRuns("Intro\n42", Whitespace, ' ') == "Intro 42"
  {
    var t := "Intro\n42";
    assert t[5] == '\n';
    forall i | 0 <= i < |t| && i != 5 ensures !IsSpace(t[i]) {
      assert t[i] in "Intro42";
    }
    forall i | 0 <= i < |t| - 1 ensures !InClass(t[i], Whitespace) || !InClass(t[i + 1], Whitespace) {
      assert i != 5 || i + 1 != 5;
    }
    SubRunsIsolated(t, Whitespace, ' ', false);
  }

  lemma PageNumberLineKept()
    ensures Strip("Intro 42") == "Intro 42" && KeepLine("Intro 42")
  {
    var line := "Intro 42";
    assert line[0] == 'I' && line[|line| - 1] == '2';
  }

  lemma PlainLineSpoken(language: string)
    ensures SpokenAll("Intro 42", language) == "Intro 42"
  {
    var line := "Intro 42";
    assert forall c :: c in line ==> c in "Intro 42";
    SpokenAllPlain(line, language);
  }

  /** The em dash is replaced by a spaced hyphen, so the spaces around it double. */
  lemma EmDashDoublesSpaces(language: string)
    ensures Clean("a — b", language) == "a  -  b"
  {
    CleanJudgesWholeText("a — b", language);
    EmDashLineKept();
    EmDashLineSpoken(language);
  }

  lemma EmDashLineKept()
    ensures Strip(SubRuns("a — b", Whitespace, ' ')) == "a — b" && KeepLine("a — b")
  {
    var t := "a — b";
    assert t[0] == 'a' && t[1] == ' ' && t[2] == '—' && t[3] == ' ' && t[4] == 'b';
    forall i | 0 <= i < |t| - 1 ensures !InClass(t[i], Whitespace) || !InClass(t[i + 1], Whitespace) {
      assert i == 0 || i == 1 || i == 2 || i == 3;
    }
    SubRunsIsolated(t, Whitespace, ' ', false);
    assert SubRuns(t, Whitespace, ' ') == t;
  }

  lemma SpokenOne(c: char, language: string)
    ensures SpokenAll([c], language) == Spoken(c, language)
  {
    assert [c][1..] == [];
  }

  lemma EmDashLineSpoken(language: string)
    ensures SpokenAll("a — b", language) == "a  -  b"
  {
    var t := "a — b";
    assert t == ['a'] + [' '] + ['—'] + [' '] + ['b'];
    SpokenAllAppend(['a'] + [' '] + ['—'] + [' '], ['b'], language);
    SpokenAllAppend(['a'] + [' '] + ['—'], [' '], language);
    SpokenAllAppend(['a'] + [' '], ['—'], language);
    SpokenAllAppend(['a'], [' '], language);
    SpokenOne('a', language);
    SpokenOne(' ', language);
    SpokenOne('—', language);
    SpokenOne('b', language);
  }
}

=== FILE: strings.dfy ===
/**
 * The handful of Python `str` and `re` operations the converter relies on,
 * stated over `seq<char>`.
 */
module Strings {

  /** A non-empty sequence is its head followed by its tail, also in front of a concatenation. */
  lemma ConsAppend<T>(a: seq<T>, b: seq<T>)
    requires a != []
    ensures a == [a[0]] + a[1..] && a + b == [a[0]] + (a[1..] + b)
  {
  }

  lemma AppendAssoc<T>(x: seq<T>, y: seq<T>, z: seq<T>)
    ensures x + (y + z) == (x + y) + z
  {
  }

  lemma ConsAppend3<T>(a: seq<T>, m: seq<T>, b: seq<T>)
    requires a != []
    ensures a + m + b == [a[0]] + (a[1..] + m + b)
  {
  }

  lemma AppendAssoc3<T>(h: seq<T>, x: seq<T>, y: seq<T>, z: seq<T>)
    ensures h + (x + y + z) == h + x + y + z
  {
  }

  /** Python's `str.isspace`, which is also what the `\s` class of `re` matches in a str pattern. */
  predicate IsSpace(c: char) {
    || ('\U{9}' <= c <= '\U{D}')        // \t \n \v \f \r
    || ('\U{1C}' <= c <= '\U{1F}')      // file, group, record and unit separators
    || c == ' ' || c == '\U{85}' || c == '\U{A0}' || c == '\U{1680}'
    || ('\U{2000}' <= c <= '\U{200A}')
    || c == '\U{2028}' || c == '\U{2029}' || c == '\U{202F}' || c == '\U{205F}' || c == '\U{3000}'
  }

  /** The two character classes whose runs the cleaner collapses: `\n` and `\s`. */
  datatype CharClass = Newlines | Whitespace

  predicate InClass(c: char, cls: CharClass) {
    match cls
    case Newlines => c == '\n'
    case Whitespace => IsSpace(c)
  }

  /** Every character of s is whitespace (vacuously true of the empty string). */
  predicate AllSpace(s: string) {
    forall i :: 0 <= i < |s| ==> IsSpace(s[i])
  }

  /** Python's `str.isdigit`, restricted to the ASCII digits. */
  predicate IsDigits(s: string) {
    |s| > 0 && forall i :: 0 <= i < |s| ==> '0' <= s[i] <= '9'
  }

  /** Number of occurrences of c in s. */
  function Count(s: string, c: char): (n: nat)
    ensures n <= |s|
    ensures n == 0 <==> c !in s
  {
    if s == [] then 0 else (if s[0] == c then 1 else 0) + Count(s[1..], c)
  }

  /** The characters of s that are outside the class cls, in order. */
  function Without(s: string, cls: CharClass): (r: string)
    ensures |r| <= |s|
  {
    if s == [] then [] else (if InClass(s[0], cls) then [] else [s[0]]) + Without(s[1..], cls)
  }

  /** s with its leading characters of class cls removed. */
  function DropRun(s: string, cls: CharClass): (r: string)
    ensures |r| <= |s|
    ensures r == [] || !InClass(r[0], cls)
  {
    if s != [] && InClass(s[0], cls) then DropRun(s[1..], cls) else s
  }

  /** What DropRun removes is a prefix of class characters. */
  lemma {:induction false} DropRunShape(s: string, cls: CharClass)
    ensures var r := DropRun(s, cls);
      && r == s[|s| - |r|..]
      && forall i :: 0 <= i < |s| - |r| ==> InClass(s[i], cls)
  {
    if s != [] && InClass(s[0], cls) {
      DropRunShape(s[1..], cls);
    }
  }

  /** s with its trailing whitespace removed. */
  function StripRight(s: string): (r: string)
    ensures |r| <= |s| && r == s[..|r|]
    ensures forall i :: |r| <= i < |s| ==> IsSpace(s[i])
    ensures r == [] || !IsSpace(r[|r| - 1])
  {
    if s != [] && IsSpace(s[|s| - 1]) then StripRight(s[..|s| - 1]) else s
  }

  /** Python's `str.strip()`: the longest infix of s that neither starts nor ends with whitespace. */
  function Strip(s: string): (r: string)
    ensures |r| <= |s|
    ensures r == [] || (!IsSpace(r[0]) && !IsSpace(r[|r| - 1]))
    ensures r == [] <==> AllSpace(s)
    ensures forall c :: c in r ==> c in s
    ensures (s == [] || (!IsSpace(s[0]) && !IsSpace(s[|s| - 1]))) ==> r == s
  {
    var left := DropRun(s, Whitespace);
    DropRunShape(s, Whitespace);
    var r := StripRight(left);
    assert left == [] ==> AllSpace(s);
    assert left != [] ==> !IsSpace(left[0]);
    assert forall c :: c in r ==> c in left;
    assert forall c :: c in left ==> c in s;
    r
  }

  /**
   * Strip removes whitespace at the two ends and nothing else: the result is
   * the infix of s between a leading and a trailing run of whitespace.
   */
  lemma StripIsInfix(s: string)
    ensures var r, k := Strip(s), |s| - |DropRun(s, Whitespace)|;
      && k + |r| <= |s| && r == s[k..k + |r|]
      && AllSpace(s[..k]) && AllSpace(s[k + |r|..])
  {
    var left := DropRun(s, Whitespace);
    DropRunShape(s, Whitespace);
    var k := |s| - |left|;
    var r := StripRight(left);
    assert Strip(s) == r;
    SliceOfSuffix(s, k, |r|);
    LeadingRunIsSpace(s, k);
    TrailingRunIsSpace(left);
  }

  /** The run DropRun removes is whitespace. */
  lemma LeadingRunIsSpace(s: string, k: nat)
    requires k <= |s|
    requires forall i :: 0 <= i < k ==> InClass(s[i], Whitespace)
    ensures AllSpace(s[..k])
  {
    forall i | 0 <= i < k ensures IsSpace(s[..k][i]) {
      assert InClass(s[i], Whitespace);
    }
  }

  /** The tail StripRight removes is whitespace. */
  lemma TrailingRunIsSpace(left: string)
    ensures AllSpace(left[|StripRight(left)|..])
  {
    var n := |StripRight(left)|;
    forall i | 0 <= i < |left| - n ensures IsSpace(left[n..][i]) {
      assert left[n..][i] == left[n + i];
    }
  }

  /** Slicing a suffix is slicing the whole sequence further along. */
  lemma SliceOfSuffix<T>(s: seq<T>, k: nat, n: nat)
    requires k + n <= |s|
    ensures s[k..][..n] == s[k..k + n] && s[k..][n..] == s[k + n..]
  {
  }

  /**
   * `re.sub(<cls>+, [rep], s)`: every maximal run of characters of class cls
   * becomes the one character rep. inRun says whether the character before s
   * belonged to a run already replaced, so that a run continuing into s adds nothing.
   */
  function SubRunsFrom(s: string, cls: CharClass, rep: char, inRun: bool): (r: string)
    ensures |r| <= |s| + 1
  {
    if s == [] then []
    else if !InClass(s[0], cls) then [s[0]] + SubRunsFrom(s[1..], cls, rep, false)
    else if inRun then SubRunsFrom(s[1..], cls, rep, true)
    else [rep] + SubRunsFrom(s[1..], cls, rep, true)
  }

  function SubRuns(s: string, cls: CharClass, rep: char): (r: string)
    ensures |r| <= |s|
    ensures r == [] <==> s == []
  {
    SubRunsLength(s, cls, rep, false);
    SubRunsFrom(s, cls, rep, false)
  }

  lemma {:induction false} SubRunsLength(s: string, cls: CharClass, rep: char, inRun: bool)
    ensures var r := SubRunsFrom(s, cls, rep, inRun);
      && (inRun ==> |r| <= |s|)
      && (!inRun ==> |r| <= |s| && (r == [] <==> s == []))
  {
    if s != [] {
      SubRunsLength(s[1..], cls, rep, false);
      SubRunsLength(s[1..], cls, rep, true);
    }
  }

  /** One step of the substitution: the first character, then the rest with the run flag updated. */
  lemma SubRunsCons(x: char, t: string, cls: CharClass, rep: char, inRun: bool)
    ensures SubRunsFrom([x] + t, cls, rep, inRun)
      == (if !InClass(x, cls) then [x] else if inRun then [] else [rep]) + SubRunsFrom(t, cls, rep, InClass(x, cls))
  {
    var s := [x] + t;
    assert s[0] == x && s[1..] == t;
  }

  /** A character outside the class passes through in place, and the text after it is collapsed afresh. */
  lemma {:induction false} SubRunsAroundChar(a: string, c: char, b: string, cls: CharClass, rep: char, inRun: bool)
    requires !InClass(c, cls)
    ensures SubRunsFrom(a + [c] + b, cls, rep, inRun) == SubRunsFrom(a, cls, rep, inRun) + [c] + SubRuns(b, cls, rep)
  {
    if a == [] {
      assert a + [c] + b == [c] + b;
      SubRunsCons(c, b, cls, rep, inRun);
    } else {
      var x, t := a[0], a[1..];
      ConsAppend3(a, [c], b);
      SubRunsCons(x, t + [c] + b, cls, rep, inRun);
      ConsAppend(a, []);
      assert a == [x] + t;
      SubRunsCons(x, t, cls, rep, inRun);
      SubRunsAroundChar(t, c, b, cls, rep, InClass(x, cls));
      var head := if !InClass(x, cls) then [x] else if inRun then [] else [rep];
      AppendAssoc3(head, SubRunsFrom(t, cls, rep, InClass(x, cls)), [c], SubRuns(b, cls, rep));
    }
  }

  /** A whole run of class characters becomes one rep, or nothing when it continues a run already replaced. */
  lemma {:induction false} SubRunsOfRun(run: string, cls: CharClass, rep: char, inRun: bool)
    requires forall i :: 0 <= i < |run| ==> InClass(run[i], cls)
    ensures SubRunsFrom(run, cls, rep, inRun) == if inRun || run == [] then [] else [rep]
  {
    if run != [] {
      assert InClass(run[0], cls);
      SubRunsOfRun(run[1..], cls, rep, true);
    }
  }

  /**
   * What the substitution leaves behind: the characters outside the class are
   * untouched and in order, every class character is rep, no two class
   * characters are adjacent, and nothing else appears.
   */
  lemma SubRunsShape(s: string, cls: CharClass, rep: char, inRun: bool)
    requires InClass(rep, cls)
    ensures var r := SubRunsFrom(s, cls, rep, inRun);
      && Without(r, cls) == Without(s, cls)
      && (forall i :: 0 <= i < |r| && InClass(r[i], cls) ==> r[i] == rep)
      && (forall i :: 0 <= i < |r| - 1 ==> !InClass(r[i], cls) || !InClass(r[i + 1], cls))
      && (inRun ==> r == [] || !InClass(r[0], cls))
      && (forall c :: c in r ==> c == rep || c in s)
  {
    SubRunsKeepsOthers(s, cls, rep, inRun);
    SubRunsSourced(s, cls, rep, inRun);
    SubRunsSeparated(s, cls, rep, inRun);
  }

  /** The characters outside the class survive the substitution unchanged and in order. */
  lemma {:induction false} SubRunsKeepsOthers(s: string, cls: CharClass, rep: char, inRun: bool)
    requires InClass(rep, cls)
    ensures Without(SubRunsFrom(s, cls, rep, inRun), cls) == Without(s, cls)
  {
    if s != [] {
      var x, t := s[0], s[1..];
      var next := InClass(x, cls);
      assert s == [x] + t;
      SubRunsKeepsOthers(t, cls, rep, next);
      SubRunsCons(x, t, cls, rep, inRun);
      WithoutCons(x, t, cls);
      var rt := SubRunsFrom(t, cls, rep, next);
      if !next {
        WithoutCons(x, rt, cls);
      } else if !inRun {
        WithoutCons(rep, rt, cls);
      } else {
        assert [] + rt == rt;
      }
    }
  }

  /** Every character of the result is rep or a character of the input. */
  lemma {:induction false} SubRunsSourced(s: string, cls: CharClass, rep: char, inRun: bool)
    ensures forall c :: c in SubRunsFrom(s, cls, rep, inRun) ==> c == rep || c in s
  {
    if s != [] {
      var x, t := s[0], s[1..];
      assert s == [x] + t;
      SubRunsSourced(t, cls, rep, InClass(x, cls));
      SubRunsCons(x, t, cls, rep, inRun);
      assert forall c :: c in t ==> c in s;
    }
  }

  /** Every class character of the result is rep and no two of them are adjacent. */
  lemma {:induction false} SubRunsSeparated(s: string, cls: CharClass, rep: char, inRun: bool)
    requires InClass(rep, cls)
    ensures var r := SubRunsFrom(s, cls, rep, inRun);
      && (forall i :: 0 <= i < |r| && InClass(r[i], cls) ==> r[i] == rep)
      && (forall i :: 0 <= i < |r| - 1 ==> !InClass(r[i], cls) || !InClass(r[i + 1], cls))
      && (inRun ==> r == [] || !InClass(r[0], cls))
  {
    if s != [] {
      var x, t := s[0], s[1..];
      var next := InClass(x, cls);
      assert s == [x] + t;
      SubRunsSeparated(t, cls, rep, next);
      SubRunsCons(x, t, cls, rep, inRun);
      var r, rt := SubRunsFrom(s, cls, rep, inRun), SubRunsFrom(t, cls, rep, next);
      if !next || !inRun {
        assert r[1..] == rt;
        forall i | 0 <= i < |r| - 1 ensures !InClass(r[i], cls) || !InClass(r[i + 1], cls) {
          if i > 0 {
            assert r[i] == rt[i - 1] && r[i + 1] == rt[i];
          }
        }
      }
    }
  }

  /** Without, one character at a time. */
  lemma WithoutCons(x: char, t: string, cls: CharClass)
    ensures Without([x] + t, cls) == (if InClass(x, cls) then [] else [x]) + Without(t, cls)
  {
    var s := [x] + t;
    assert s[0] == x && s[1..] == t;
  }

  /** Where no two class characters are adjacent, every class character is simply replaced by rep. */
  lemma {:induction false} SubRunsIsolated(s: string, cls: CharClass, rep: char, inRun: bool)
    requires forall i :: 0 <= i < |s| - 1 ==> !InClass(s[i], cls) || !InClass(s[i + 1], cls)
    requires inRun ==> s == [] || !InClass(s[0], cls)
    ensures var r := SubRunsFrom(s, cls, rep, inRun);
      |r| == |s| && forall i :: 0 <= i < |s| ==> r[i] == if InClass(s[i], cls) then rep else s[i]
  {
    if s != [] {
      SubRunsIsolated(s[1..], cls, rep, InClass(s[0], cls));
      var r := SubRunsFrom(s, cls, rep, inRun);
      assert r == [r[0]] + SubRunsFrom(s[1..], cls, rep, InClass(s[0], cls));
    }
  }

  /** Collapsing runs a second time changes nothing. */
  lemma SubRunsIdempotent(s: string, cls: CharClass, rep: char)
    requires InClass(rep, cls)
    ensures SubRuns(SubRuns(s, cls, rep), cls, rep) == SubRuns(s, cls, rep)
  {
    var r := SubRuns(s, cls, rep);
    SubRunsShape(s, cls, rep, false);
    SubRunsIsolated(r, cls, rep, false);
    assert SubRunsFrom(r, cls, rep, false) == r;
  }

  /**
   * `re.sub(r'\s+', ' ', re.sub(r'\n+', '\n', s)) == re.sub(r'\s+', ' ', s)`:
   * collapsing newline runs before collapsing whitespace runs changes nothing,
   * because the newline is itself whitespace.
   */
  lemma NewlinePassRedundant(s: string)
    ensures SubRuns(SubRuns(s, Newlines, '\n'), Whitespace, ' ') == SubRuns(s, Whitespace, ' ')
  {
    NewlinePassRedundantFrom(s, false, false);
  }

  lemma {:induction false} NewlinePassRedundantFrom(s: string, inNewlines: bool, inSpaces: bool)
    requires inNewlines ==> inSpaces
    ensures SubRunsFrom(SubRunsFrom(s, Newlines, '\n', inNewlines), Whitespace, ' ', inSpaces)
         == SubRunsFrom(s, Whitespace, ' ', inSpaces)
  {
    if s != [] {
      var c := s[0];
      if c == '\n' {
        NewlinePassRedundantFrom(s[1..], true, true);
        if !inNewlines {
          var t := SubRunsFrom(s[1..], Newlines, '\n', true);
          assert SubRunsFrom(s, Newlines, '\n', false) == ['\n'] + t;
          assert (['\n'] + t)[1..] == t;
        }
      } else {
        NewlinePassRedundantFrom(s[1..], false, IsSpace(c));
        var t := SubRunsFrom(s[1..], Newlines, '\n', false);
        assert SubRunsFrom(s, Newlines, '\n', inNewlines) == [c] + t;
        assert ([c] + t)[1..] == t;
      }
    }
  }

  /** Python's `sep.join(parts)`. */
  function Join(parts: seq<string>, sep: string): (r: string)
    ensures forall c :: c in r ==> c in sep || exists k :: 0 <= k < |parts| && c in parts[k]
  {
    if |parts| == 0 then []
    else if |parts| == 1 then parts[0]
    else
      var tail := Join(parts[1..], sep);
      assert forall c :: c in tail ==> c in sep || exists k :: 0 <= k < |parts| && c in parts[k] by {
        forall c | c in tail && c !in sep
          ensures exists k :: 0 <= k < |parts| && c in parts[k]
        {
          var k :| 0 <= k < |parts[1..]| && c in parts[1..][k];
          assert c in parts[k + 1];
        }
      }
      parts[0] + sep + tail
  }

  /** Putting c in front of the first part puts it in front of the join. */
  lemma JoinExtendHead(c: char, parts: seq<string>, sep: string)
    requires parts != []
    ensures Join([[c] + parts[0]] + parts[1..], sep) == [c] + Join(parts, sep)
  {
    var r := [[c] + parts[0]] + parts[1..];
    assert r[0] == [c] + parts[0] && r[1..] == parts[1..] && |r| == |parts|;
  }

  /** Python's `s.split(sep)` for a one-character separator: the pieces between the occurrences of sep. */
  function Split(s: string, sep: char): (r: seq<string>)
    ensures |r| == Count(s, sep) + 1
    ensures forall k :: 0 <= k < |r| ==> sep !in r[k]
    ensures Join(r, [sep]) == s
  {
    if s == [] then [[]]
    else
      var x, t := s[0], s[1..];
      var rest := Split(t, sep);
      assert s == [x] + t;
      if x == sep then
        JoinExtendEmpty(rest, [sep]);
        [[]] + rest
      else
        JoinExtendHead(x, rest, [sep]);
        ExtendHeadPieces(x, rest, sep);
        [[x] + rest[0]] + rest[1..]
  }

  /** An empty first part puts one separator in front of the join. */
  lemma JoinExtendEmpty(parts: seq<string>, sep: string)
    requires parts != []
    ensures Join([[]] + parts, sep) == sep + Join(parts, sep)
  {
    var r := [[]] + parts;
    assert r[0] == [] && r[1..] == parts;
  }

  /** Growing the first piece by a non-separator keeps every piece free of the separator. */
  lemma ExtendHeadPieces(x: char, pieces: seq<string>, sep: char)
    requires x != sep && pieces != []
    requires forall k :: 0 <= k < |pieces| ==> sep !in pieces[k]
    ensures var r := [[x] + pieces[0]] + pieces[1..];
      |r| == |pieces| && forall k :: 0 <= k < |r| ==> sep !in r[k]
  {
    var r := [[x] + pieces[0]] + pieces[1..];
    forall k | 0 <= k < |r| ensures sep !in r[k] {
      if k > 0 {
        assert r[k] == pieces[k];
      }
    }
  }

  /** Replacing in a one-character string. */
  lemma ReplaceSingle(c: char, pat: char, sub: string)
    ensures Replace([c], pat, sub) == if c == pat then sub else [c]
  {
    assert [c][0] == c && [c][1..] == [];
  }

  /** Python's `s.replace(pat, sub)` for a one-character pattern. */
  function Replace(s: string, pat: char, sub: string): (r: string)
    ensures forall c :: c in r ==> c in sub || (c in s && c != pat)
    ensures pat !in sub ==> pat !in r
    ensures pat !in s ==> r == s
  {
    if s == [] then []
    else
      var head := if s[0] == pat then sub else [s[0]];
      var tail := Replace(s[1..], pat, sub);
      assert forall c :: c in s[1..] ==> c in s;
      head + tail
  }

  /** Replacing a character in a concatenation replaces it in each part. */
  lemma {:induction false} ReplaceAppend(a: string, b: string, pat: char, sub: string)
    ensures Replace(a + b, pat, sub) == Replace(a, pat, sub) + Replace(b, pat, sub)
  {
    if a == [] {
      assert a + b == b;
    } else {
      var x, t := a[0], a[1..];
      ConsAppend(a, b);
      ReplaceCons(x, t + b, pat, sub);
      ReplaceCons(x, t, pat, sub);
      ReplaceAppend(t, b, pat, sub);
      AppendAssoc(if x == pat then sub else [x], Replace(t, pat, sub), Replace(b, pat, sub));
    }
  }

  /** Replacing, one character at a time. */
  lemma ReplaceCons(x: char, t: string, pat: char, sub: string)
    ensures Replace([x] + t, pat, sub) == (if x == pat then sub else [x]) + Replace(t, pat, sub)
  {
    var s := [x] + t;
    assert s[0] == x && s[1..] == t;
  }

  /** ASCII case folding (Python's `str.lower` also folds non-ASCII letters). */
  function LowerChar(c: char): char {
    if 'A' <= c <= 'Z' then (c as int + 32) as char else c
  }

  function Lower(s: string): (r: string)
    ensures |r| == |s|
    ensures forall i :: 0 <= i < |s| ==> !('A' <= r[i] <= 'Z')
    ensures forall i :: 0 <= i < |s| && 'A' <= s[i] <= 'Z' ==> r[i] as int == s[i] as int + 32
    ensures forall i :: 0 <= i < |s| && !('A' <= s[i] <= 'Z') ==> r[i] == s[i]
  {
    seq(|s|, i requires 0 <= i < |s| => LowerChar(s[i]))
  }

  /** Python's `k in s` for strings: k occurs in s as a contiguous substring. */
  predicate Contains(s: string, k: string) {
    (|k| <= |s| && s[..|k|] == k) || (s != [] && Contains(s[1..], k))
  }

  /** Python's `any(k in s for k in ks)`. */
  predicate ContainsAny(s: string, ks: seq<string>) {
    exists i :: 0 <= i < |ks| && Contains(s, ks[i])
  }

  /** k occurs in s starting at position j. */
  predicate OccursAt(s: string, k: string, j: nat) {
    j + |k| <= |s| && s[j..j + |k|] == k
  }

  /** k is in s exactly when it occurs at some position of s. */
  lemma {:induction false} ContainsIsInfix(s: string, k: string)
    ensures Contains(s, k) <==> exists j: nat :: OccursAt(s, k, j)
  {
    if |k| <= |s| && s[..|k|] == k {
      assert OccursAt(s, k, 0);
    }
    if s != [] {
      ContainsIsInfix(s[1..], k);
      if exists j: nat :: OccursAt(s[1..], k, j) {
        var j: nat :| OccursAt(s[1..], k, j);
        OccursShift(s, k, j + 1);
      }
      if exists j: nat :: OccursAt(s, k, j) {
        var j: nat :| OccursAt(s, k, j);
        if j > 0 {
          OccursShift(s, k, j);
        }
      }
    }
  }

  /** An occurrence after the first character is an occurrence in the rest, one position earlier. */
  lemma OccursShift(s: string, k: string, j: nat)
    requires 0 < j && s != []
    ensures OccursAt(s, k, j) <==> OccursAt(s[1..], k, j - 1)
  {
    if j + |k| <= |s| {
      assert s[1..][j - 1..j - 1 + |k|] == s[j..j + |k|];
    }
  }

  /** `any(...)` over the keywords is a disjunction: the first keyword or one of the rest. */
  lemma ContainsAnyCons(s: string, k: string, ks: seq<string>)
    ensures ContainsAny(s, [k] + ks) <==> Contains(s, k) || ContainsAny(s, ks)
  {
    var all := [k] + ks;
    assert all[0] == k;
    assert forall i :: 0 <= i < |ks| ==> all[i + 1] == ks[i];
    if ContainsAny(s, all) {
      var i :| 0 <= i < |all| && Contains(s, all[i]);
      if i > 0 {
        assert Contains(s, ks[i - 1]);
      }
    }
  }

  /**
   * The newline is whitespace, so the `\s` pass also collapses it; the three
   * symbols the cleaner spells out are not whitespace; neither is a digit, so
   * a digits-only line is never blank and is its own stripped form.
   */
  lemma SpaceFacts(s: string)
    ensures IsSpace('\n') && IsSpace(' ') && !IsSpace('•') && !IsSpace('→') && !IsSpace('—')
    ensures IsDigits(s) ==> !AllSpace(s) && Strip(s) == s
  {
    if IsDigits(s) {
      assert !IsSpace(s[0]);
    }
  }
}

=== FILE: voices.dfy ===
/**
 * The voice catalog (`get_available_voices`) and the voice selector
 * (`setup_voice_for_language`). The speech engine's voice list is an input;
 * `None` stands for a voice query that raised.
 */
module Voices {
  import opened Wrappers
  import opened Strings
  import Languages

  /** A voice as the speech engine reports it. */
  datatype EngineVoice = EngineVoice(id: string, name: string)

  /** A catalog entry: the engine's id (absent for the synthetic default), the display name and the discovery index. */
  datatype VoiceInfo = VoiceInfo(id: Option<string>, name: string, index: nat)

  /** The buckets a voice can be sorted into. */
  datatype Bucket = RussianVoices | EnglishVoices | OtherVoices {
    /** The catalog key of the bucket. */
    function Key(): string {
      match this
      case RussianVoices => Languages.Russian
      case EnglishVoices => Languages.English
      case OtherVoices => Languages.Other
    }
  }

  lemma KeyInjective(a: Bucket, b: Bucket)
    ensures a.Key() == b.Key() ==> a == b
  {
    assert Languages.Russian[0] != Languages.English[0];
    assert Languages.Russian[0] != Languages.Other[0];
    assert Languages.English[0] != Languages.Other[0];
  }

  /** Language label to the voices of that language, in discovery order. */
  type Catalog = map<string, seq<VoiceInfo>>

  const NameRussian: seq<string> := ["russian", "ru", "russia"]
  const NameEnglish: seq<string> := ["english", "en", "us", "uk", "american", "british"]
  const IdRussian: seq<string> := ["ru", "russian"]
  const IdEnglish: seq<string> := ["en", "us", "uk"]

  /** The bucket of one voice: the name is tested first, the id only when the name says nothing. */
  function Classify(v: EngineVoice): Bucket {
    var name := Lower(v.name);
    var id := Lower(v.id);
    if ContainsAny(name, NameRussian) then RussianVoices
    else if ContainsAny(name, NameEnglish) then EnglishVoices
    else if ContainsAny(id, IdRussian) then RussianVoices
    else if ContainsAny(id, IdEnglish) then EnglishVoices
    else OtherVoices
  }

  /**
   * The name is consulted first: a name that mentions Russian decides the
   * bucket, a name that mentions a language decides it whatever the id says,
   * and a name that mentions neither leaves the decision to the id alone.
   */
  lemma NameBeforeId(v: EngineVoice)
    ensures ContainsAny(Lower(v.name), NameRussian) ==> Classify(v) == RussianVoices
    ensures ContainsAny(Lower(v.name), NameRussian) || ContainsAny(Lower(v.name), NameEnglish) ==>
      forall id :: Classify(EngineVoice(id, v.name)) == Classify(v)
    ensures !ContainsAny(Lower(v.name), NameRussian) && !ContainsAny(Lower(v.name), NameEnglish) ==>
      Classify(v) == Classify(EngineVoice(v.id, ""))
  {
    var blank := Lower("");
    assert blank == "";
    assert !ContainsAny(blank, NameRussian) by {
      forall i | 0 <= i < |NameRussian| ensures !Contains(blank, NameRussian[i]) {
        assert |NameRussian[i]| > 0;
      }
    }
    assert !ContainsAny(blank, NameEnglish) by {
      forall i | 0 <= i < |NameEnglish| ensures !Contains(blank, NameEnglish[i]) {
        assert |NameEnglish[i]| > 0;
      }
    }
  }

  /** Which part of a voice a rule inspects. */
  datatype Field = Name | Id

  /** One classification rule: if the lower-cased field contains a keyword, the voice goes to the bucket. */
  datatype Rule = Rule(field: Field, keywords: seq<string>, bucket: Bucket)

  /** The rules in the order they are tried. */
  const Rules: seq<Rule> := [
    Rule(Name, NameRussian, RussianVoices),
    Rule(Name, NameEnglish, EnglishVoices),
    Rule(Id, IdRussian, RussianVoices),
    Rule(Id, IdEnglish, EnglishVoices)
  ]

  predicate Fires(rule: Rule, v: EngineVoice) {
    ContainsAny(Lower(if rule.field == Name then v.name else v.id), rule.keywords)
  }

  /** Position of the first rule that fires, or |rules| when none does. */
  function FirstFiring(rules: seq<Rule>, v: EngineVoice): (i: nat)
    ensures i <= |rules|
    ensures forall j :: 0 <= j < i ==> !Fires(rules[j], v)
    ensures i < |rules| ==> Fires(rules[i], v)
  {
    if rules == [] then 0
    else if Fires(rules[0], v) then 0
    else 1 + FirstFiring(rules[1..], v)
  }

  /** The nested conditions of the classifier are the rule table read top to bottom, with `other` as the fall-through. */
  lemma ClassifyFollowsRules(v: EngineVoice)
    ensures var i := FirstFiring(Rules, v);
      Classify(v) == if i < |Rules| then Rules[i].bucket else OtherVoices
  {
    var i := FirstFiring(Rules, v);
    assert Rules[0].field == Name && Rules[1].field == Name && Rules[2].field == Id && Rules[3].field == Id;
    if i < |Rules| {
      assert Fires(Rules[i], v);
    }
  }

  /** The catalog entry made for the i-th listed voice. */
  function Info(vs: seq<EngineVoice>, i: nat): VoiceInfo
    requires i < |vs|
  {
    VoiceInfo(Some(vs[i].id), vs[i].name, i)
  }

  /** Reference bucket contents: the entries of the listed voices classified as b, in discovery order. */
  function Members(vs: seq<EngineVoice>, b: Bucket): (m: seq<VoiceInfo>)
    ensures |m| <= |vs|
    ensures forall k :: 0 <= k < |m| ==> m[k].index < |vs| && m[k] == Info(vs, m[k].index) && Classify(vs[m[k].index]) == b
    ensures forall k, l :: 0 <= k < l < |m| ==> m[k].index < m[l].index
  {
    if vs == [] then []
    else
      var n := |vs| - 1;
      var prefix := Members(vs[..n], b);
      assert forall k :: 0 <= k < |prefix| ==> prefix[k].index < n && prefix[k] == Info(vs, prefix[k].index);
      prefix + (if Classify(vs[n]) == b then [Info(vs, n)] else [])
  }

  /** Every listed voice is in bucket b exactly when it classifies as b. */
  lemma {:induction false} MembersComplete(vs: seq<EngineVoice>, b: Bucket, i: nat)
    requires i < |vs|
    ensures Info(vs, i) in Members(vs, b) <==> Classify(vs[i]) == b
  {
    var n := |vs| - 1;
    var prefix := Members(vs[..n], b);
    assert Members(vs, b) == prefix + (if Classify(vs[n]) == b then [Info(vs, n)] else []);
    assert forall k :: 0 <= k < |prefix| ==> prefix[k].index < n;
    if i < n {
      MembersComplete(vs[..n], b, i);
      assert Info(vs[..n], i) == Info(vs, i);
    } else {
      assert Info(vs, i) !in prefix;
    }
  }

  /** A bucket has an entry exactly when some listed voice classifies into it. */
  lemma BucketInhabited(vs: seq<EngineVoice>, b: Bucket)
    ensures Members(vs, b) != [] <==> exists i :: 0 <= i < |vs| && Classify(vs[i]) == b
  {
    var m := Members(vs, b);
    if m != [] {
      assert Classify(vs[m[0].index]) == b;
    }
    if exists i :: 0 <= i < |vs| && Classify(vs[i]) == b {
      var i :| 0 <= i < |vs| && Classify(vs[i]) == b;
      MembersComplete(vs, b, i);
    }
  }

  /** Every voice lands in exactly one bucket, so the bucket sizes add up to the number of voices. */
  lemma {:induction false} BucketSizes(vs: seq<EngineVoice>)
    ensures |Members(vs, RussianVoices)| + |Members(vs, EnglishVoices)| + |Members(vs, OtherVoices)| == |vs|
  {
    if vs != [] {
      BucketSizes(vs[..|vs| - 1]);
    }
  }

  /** The catalog used when the engine's voices cannot be listed. */
  const DefaultCatalog: Catalog := map[Languages.English := [VoiceInfo(None, "Default", 0)]]

  /** The bucket under key, or nothing when the key is missing. */
  function Bucketed(cat: Catalog, key: string): seq<VoiceInfo> {
    if key in cat then cat[key] else []
  }

  /** cat is the catalog of the listed voices vs. */
  predicate Describes(cat: Catalog, vs: seq<EngineVoice>) {
    && cat.Keys <= {RussianVoices.Key(), EnglishVoices.Key(), OtherVoices.Key()}
    && (forall key :: key in cat ==> cat[key] != [])
    && (forall b: Bucket :: Bucketed(cat, b.Key()) == Members(vs, b))
  }

  /** Appending the next listed voice to its bucket extends the catalog of a prefix to the catalog of the next prefix. */
  lemma DescribesStep(vs: seq<EngineVoice>, i: nat, before: Catalog)
    requires i < |vs|
    requires Describes(before, vs[..i])
    ensures var key := Classify(vs[i]).Key();
      Describes(before[key := Bucketed(before, key) + [Info(vs, i)]], vs[..i + 1])
  {
    var bucket := Classify(vs[i]);
    var key := bucket.Key();
    var after := before[key := Bucketed(before, key) + [Info(vs, i)]];
    forall b: Bucket ensures Bucketed(after, b.Key()) == Members(vs[..i + 1], b) {
      BucketStep(vs, i, before, b);
    }
    assert after.Keys <= {RussianVoices.Key(), EnglishVoices.Key(), OtherVoices.Key()};
    assert forall k :: k in after ==> after[k] != [];
  }

  /** One loop step seen from a single bucket: it grows by the new entry exactly when the new voice belongs to it. */
  lemma BucketStep(vs: seq<EngineVoice>, i: nat, before: Catalog, b: Bucket)
    requires i < |vs|
    requires Bucketed(before, b.Key()) == Members(vs[..i], b)
    ensures var key := Classify(vs[i]).Key();
      Bucketed(before[key := Bucketed(before, key) + [Info(vs, i)]], b.Key()) == Members(vs[..i + 1], b)
  {
    KeyInjective(b, Classify(vs[i]));
    MembersExtend(vs, i, b);
  }

  /** Listing one more voice appends its entry to its own bucket only. */
  lemma MembersExtend(vs: seq<EngineVoice>, i: nat, b: Bucket)
    requires i < |vs|
    ensures Members(vs[..i + 1], b) == Members(vs[..i], b) + (if Classify(vs[i]) == b then [Info(vs, i)] else [])
  {
    var next := vs[..i + 1];
    assert next[..i] == vs[..i] && next[i] == vs[i];
    assert Info(next, i) == Info(vs, i);
  }

  /** `get_available_voices()`: sort the listed voices into buckets, or fall back to the default catalog. */
  method BuildCatalog(listed: Option<seq<EngineVoice>>) returns (cat: Catalog)
    ensures listed.None? ==> cat == DefaultCatalog
    ensures listed.Some? ==> Describes(cat, listed.value)
  {
    if listed.None? {
      return DefaultCatalog;
    }
    var vs := listed.value;
    cat := map[];
    var i := 0;
    while i < |vs|
      invariant 0 <= i <= |vs|
      invariant Describes(cat, vs[..i])
    {
      var info := VoiceInfo(Some(vs[i].id), vs[i].name, i);
      var key := Classify(vs[i]).Key();
      DescribesStep(vs, i, cat);
      assert info == Info(vs, i);
      // a missing bucket is created empty, then the entry is appended
      cat := cat[key := Bucketed(cat, key) + [info]];
      assert Describes(cat, vs[..i + 1]);
      i := i + 1;
    }
    assert vs[..i] == vs;
  }

  /** What the selector did to the engine's voice setting. */
  datatype VoiceChoice =
    | CatalogVoice(voice: VoiceInfo)   // the first catalog voice of the language
    | EngineFirst(id: string)          // fallback: the engine's first voice
    | Unchanged                        // fallback with no engine voice to pick

  /** The selector's return value together with its effect. */
  datatype Selection = Selection(matched: bool, choice: VoiceChoice)

  /** `setup_voice_for_language(language)`; engineVoices is the engine's voice list at selection time. */
  function SelectVoice(language: string, cat: Catalog, engineVoices: Option<seq<EngineVoice>>): (s: Selection)
    ensures s.matched <==> Bucketed(cat, language) != []
    ensures s.matched ==> s.choice == CatalogVoice(cat[language][0])
    ensures !s.matched ==> !s.choice.CatalogVoice?
    ensures !s.matched ==> s.choice.EngineFirst? == (engineVoices.Some? && engineVoices.value != [])
    ensures s.choice.EngineFirst? ==> s.choice.id == engineVoices.value[0].id
  {
    if language in cat && cat[language] != [] then
      Selection(true, CatalogVoice(cat[language][0]))
    else match engineVoices
      case Some(voices) =>
        if voices != [] then Selection(false, EngineFirst(voices[0].id)) else Selection(false, Unchanged)
      case None => Selection(false, Unchanged)
  }

  /** On a catalog of the listed voices, a bucket's label selects a voice exactly when some listed voice classifies into that bucket. */
  lemma SelectMatchesWhenBucketInhabited(vs: seq<EngineVoice>, cat: Catalog, b: Bucket, engineVoices: Option<seq<EngineVoice>>)
    requires Describes(cat, vs)
    ensures SelectVoice(b.Key(), cat, engineVoices).matched <==> exists i :: 0 <= i < |vs| && Classify(vs[i]) == b
  {
    assert Bucketed(cat, b.Key()) == Members(vs, b);
    BucketInhabited(vs, b);
  }

  /** On a catalog of the listed voices, the voice a bucket's label selects is the first one discovered in that bucket. */
  lemma SelectPicksFirstDiscovered(vs: seq<EngineVoice>, cat: Catalog, b: Bucket, engineVoices: Option<seq<EngineVoice>>)
    requires Describes(cat, vs)
    requires SelectVoice(b.Key(), cat, engineVoices).matched
    ensures var v := SelectVoice(b.Key(), cat, engineVoices).choice.voice;
      && v.index < |vs|
      && v == Info(vs, v.index)
      && Classify(vs[v.index]) == b
      && forall j :: 0 <= j < v.index ==> Classify(vs[j]) != b
  {
    var m := Members(vs, b);
    assert Bucketed(cat, b.Key()) == m;
    forall j | 0 <= j < m[0].index ensures Classify(vs[j]) != b {
      MembersComplete(vs, b, j);
    }
  }

  /** The label "en" is never a catalog key, so it never selects a catalog voice. */
  lemma ShortLabelNeverMatches(listed: Option<seq<EngineVoice>>, cat: Catalog, engineVoices: Option<seq<EngineVoice>>)
    requires listed.None? ==> cat == DefaultCatalog
    requires listed.Some? ==> Describes(cat, listed.value)
    ensures !SelectVoice(Languages.ShortEnglish, cat, engineVoices).matched
  {
    assert Languages.ShortEnglish !in cat;
  }
}

=== FILE: wrappers.dfy ===
/** Optional values: an absent Python value (`None`) or a call that raised. */
module Wrappers {
  datatype Option<+T> = None | Some(value: T)
}
